=== FILE: README.md ===
# IndexedDB chunk store of the Fieldfare browser backend

This project models the browser backend's content-addressed chunk store,
which runs on top of IndexedDB, and proves properties of that model. It
covers two layers.

- **The key-value layer (`IndexedDBBase`).** Each instance stands for one
  object store of the single `fieldfare` database, version 3.
  - The schema upgrade walks every registered instance. It keeps an existing
    store, rebinds the instance to an existing compatible (legacy) store, or
    creates the store.
  - `getStore` opens a connection and asks for the active store. When the
    store is missing and a distinct compatible name is set, it closes the
    connection, switches the instance's store name for good and tries once
    more.
  - `put` upserts one entry.
  - `get` returns the entry only when it is truthy. An absent or falsy entry
    is an error that carries the `notFound` flag.
  - Every path closes the connection it opened.
- **The chunk manager (`IndexedDBChunkManager`).**
  - `storeChunkContents` rejects content longer than 1024. It then looks each
    child identifier up in the `complete-chunks` tier, in order, and stops at
    the first failure.
    - If every child is found, it writes `{base64data, depth, size}` to that
      tier. The size is the content length plus the children's sizes. The
      depth is one more than the deepest child.
    - Otherwise it writes the raw content to the `incomplete-chunks` tier,
      which was once named `chunk`.
  - `getChunkContents` tries the complete tier first.
    - Only a `notFound` error falls through to the incomplete tier.
    - A `notFound` there becomes the `Chunk not found` error.
    - Every other error propagates unchanged.

The model is functional:

- A database is a map from store names to stores. Each store maps keys to
  JavaScript values.
- Each operation returns the new database and the possibly switched
  instances. It also returns an event log of connections opened and closed,
  requests issued, lookups made and helpers consulted.
- The requests the engine rejects are a parameter, `Env.failing`. The
  connection-close promise is stated over the log (`Engine.Connection`).
- The core library's two content-identity helpers are an uninterpreted
  pair of functions (`ChunkIdentity`).

Modules:

- `JsValues` (`js_values.dfy`): values and truthiness.
- `Engine` (`engine.dfy`): database, errors, event log.
- `IndexedDBBase` (`indexed_db_base.dfy`).
- `IndexedDBChunkManager` (`chunk_manager.dfy`).
- `ChunkStoreProperties` (`chunk_properties.dfy`): properties across several
  calls.

Two behaviours of the code are modelled as written.

- **Compatible name never set.** When no compatible name is set, the upgrade
  checks `contains(undefined)`. That looks up the store named `"undefined"`
  (`IndexedDBBase.DomName`).
- **Error after a retry.** When the retry in `getStore` fails, the error that
  propagates names the compatible store, not the original one.

## Model

| member | source | states |
|---|---|---|
| `IndexedDBBase.UpgradeEntry` | src/IndexedDBBase.js:41-51 | An existing store keeps its instance and changes nothing. A missing store whose compatible store exists rebinds the instance to it and creates nothing. Otherwise exactly the primary store is created, empty. Existing stores and their contents survive. |
| `IndexedDBBase.Upgrade` | src/IndexedDBBase.js:36-53 | The upgrade only adds stores and never alters an existing one. Every new store is empty and is the primary name of some entry whose compatible store did not exist, so a present legacy store is rebound to, never duplicated. Each instance either keeps its name or is rebound to a compatible store that exists because its primary store did not. Freshly constructed instances all end up naming an existing store. |
| `IndexedDBBase.UpgradeStep` | src/IndexedDBBase.js:40-52 | One more pass of the loop keeps the upgrade's promise. Handle the next entry against the database the earlier entries left, and the promise holds for the longer registry. |
| `IndexedDBBase.UpgradeSettled` | src/IndexedDBBase.js:40-52 | When every entry already has its store, or is bound to an existing compatible store, the upgrade changes neither the database nor the registry. |
| `IndexedDBBase.UpgradeIdempotent` | src/IndexedDBBase.js:36-53 | Running the upgrade a second time on its own result changes nothing. |
| `IndexedDBBase.GetStore` | src/IndexedDBBase.js:55-74 | Success exactly when the database opens and either the active store exists or a distinct compatible name is set and that store exists. The handed-out store exists and is the instance's name. A failure is the open error when the open is rejected, and otherwise NotFoundError for the name last tried. The name switches exactly in the retry case, and no further retry is then possible. At most two connections are opened. All are closed on failure; on success only the handed-out one stays open. |
| `IndexedDBBase.SwitchIsPermanent` | src/IndexedDBBase.js:64-69 | Once an instance has switched to its compatible name, no later call switches it again, whatever the database then holds. |
| `IndexedDBBase.CallLog` | src/IndexedDBBase.js:79-111 | Once a store is handed out, the request's success and error callbacks both close the connection. A get reads exactly its own key. |
| `IndexedDBBase.Put` | src/IndexedDBBase.js:76-91 | Success exactly when a store is resolved and the write is not rejected. Success upserts the entry under the key in the resolved store, with every other key and store unchanged. A failure changes nothing and is getStore's error, or else the write request's own error, so it never carries the notFound flag. The connection ends closed. |
| `IndexedDBBase.Get` | src/IndexedDBBase.js:93-115 | A value is returned exactly when the store resolves, the read is accepted and the stored entry is truthy, and it is the stored entry. The notFound error is raised exactly for an absent or falsy entry in a reachable store. Any other failure is getStore's error, or else the read request's own error. The connection ends closed, and the only key read is the one asked for. |
| `IndexedDBBase.PutThenGet` | src/IndexedDBBase.js:76-115 | A truthy value put under a key is what a later get of that key returns. |
| `IndexedDBBase.PutFalsyReadsNotFound` | src/IndexedDBBase.js:97-106 | A falsy value put under a key reads back as the notFound error. |
| `IndexedDBBase.GetDependsOnEntry` | src/IndexedDBBase.js:93-115 | Without a possible retry, get depends only on whether the store exists and on the entry under the key. |
| `Engine.ConnectionAppend` | src/IndexedDBBase.js:58-63 | The open/closed state at the end of two concatenated event logs is the state after the first log followed by the second. This is what composes the close-on-every-path promise across nested calls. |
| `Engine.LookupsAppend` | src/IndexedDBChunkManager.js:33-40 | The keys read by concatenated logs are the first log's keys followed by the second's. This is what composes the in-order child lookups. |
| `IndexedDBChunkManager.ChildRecord` | src/IndexedDBChunkManager.js:36-42 | A child found in the complete tier is a `{base64data, depth, size}` record, so its size and depth are defined. |
| `IndexedDBChunkManager.SizeSumCons` | src/IndexedDBChunkManager.js:41 | The children's total size is the first child's size plus the rest's total. |
| `IndexedDBChunkManager.ScanChildren` | src/IndexedDBChunkManager.js:33-43 | The loop ends complete exactly when every child resolves in the complete tier. The children looked up are, in order, a prefix of the list: all of them when complete, otherwise ending at the first child that fails, after children that all resolved. Every connection ends closed. A complete loop has folded every child record into depth and size, as `Totals` does. |
| `IndexedDBChunkManager.ScanStep` | src/IndexedDBChunkManager.js:33-40 | A successful lookup of the first child, followed by a loop over the rest, keeps the loop's promise for the whole list. |
| `IndexedDBChunkManager.TotalsBounds` | src/IndexedDBChunkManager.js:41-42 | Folding the children's records gives the start size plus the children's sizes. The depth is at least the start and at least every child depth plus one, and equals one of those. |
| `IndexedDBChunkManager.ScanTotals` | src/IndexedDBChunkManager.js:41-42 | When every child resolves, the size is the start plus the children's sizes. The depth is at least the start and at least every child depth plus one, and equals the start or one of those. |
| `IndexedDBChunkManager.PersistComplete` | src/IndexedDBChunkManager.js:45-46 | The record goes to the complete tier and nowhere else. The write succeeds exactly when that store resolves and the write is accepted, and the result carries the given depth and size. A failure is the open error, NotFoundError for the missing store, or the write's own error. The instances are unchanged. |
| `IndexedDBChunkManager.PersistIncomplete` | src/IndexedDBChunkManager.js:47-50 | The raw content goes to the incomplete tier, under its current or legacy name, and nowhere else. The write succeeds exactly when that store resolves and the write is accepted, and the result has no depth or size. The instance keeps its active name while that store exists and switches to the legacy name only when it is missing. A failure is the open error, NotFoundError for the name last tried, or the write's own error. |
| `IndexedDBChunkManager.Persist` | src/IndexedDBChunkManager.js:44-52 | A complete chunk writes its record, with the loop's depth and size, to the complete tier and nowhere else. An incomplete chunk writes its raw content, with no depth or size, to the incomplete tier under its current or legacy name and nowhere else. Each write succeeds exactly when its store resolves and the write is accepted. A failure changes nothing and is the open error, NotFoundError or the write's own error. A complete write leaves the instances unchanged. An incomplete write switches the incomplete instance only when its active store is missing. |
| `IndexedDBChunkManager.StoreChunkContents` | src/IndexedDBChunkManager.js:25-53 | Content over 1024 fails before anything is consulted, read or written. The result carries the identifier generated from the content and the content itself. It is complete exactly when every child resolves. A complete chunk is upserted into the complete tier only; otherwise the raw content goes into the incomplete tier only. A failure changes nothing and never carries the notFound flag. Tier invariants hold afterwards. Connections end closed. Child lookups are an in-order prefix: all children when every one resolves, otherwise ending at the first failing child after children that all resolved. Within the cap the call succeeds exactly when the connection opens and the final write reaches an existing store of the chosen tier and is accepted. Both instances stay unchanged unless the chunk goes to the incomplete tier. That write switches the incomplete instance to its compatible name exactly when its active store is missing. A failure within the cap is the final write's error: the open error, NotFoundError for the missing store, or the write's own error. |
| `IndexedDBChunkManager.ScanFromZero` | src/IndexedDBChunkManager.js:26-43 | With every child resolving, the loop started at depth 0 and at the content's length gives the length plus the children's sizes, and one more than the deepest child (0 with no children). |
| `IndexedDBChunkManager.CompleteChunkMeasures` | src/IndexedDBChunkManager.js:26-46 | A chunk reported complete has every child in the complete tier. Its size is its length plus the children's sizes. Its depth is one more than the deepest child, or 0 for a leaf. |
| `IndexedDBChunkManager.LeafChunkIsComplete` | src/IndexedDBChunkManager.js:26-46 | A stored chunk without children is complete, with depth 0 and its own length as size. |
| `IndexedDBChunkManager.GetChunkContents` | src/IndexedDBChunkManager.js:55-81 | A hit in the complete tier wins, with its stored depth and size. Any error of that lookup other than notFound propagates unchanged. On notFound the incomplete tier answers: its content with complete false, the Chunk not found error for its own notFound, or its other error unchanged. Chunk not found is raised exactly when both tiers miss. Both instances stay unchanged unless the lookup falls through to the incomplete tier. Connections end closed. |
| `ChunkStoreProperties.StoreThenGetComplete` | src/IndexedDBChunkManager.js:44-63 | A chunk stored complete reads back complete, with the same content, depth and size. |
| `ChunkStoreProperties.StoreThenGetIncomplete` | src/IndexedDBChunkManager.js:47-68 | A non-empty chunk stored incomplete, whose identifier the complete tier lacks, reads back incomplete with the same content. |
| `ChunkStoreProperties.EmptyIncompleteChunkReadsAsMissing` | src/IndexedDBChunkManager.js:65-75 | Empty content written to the incomplete tier reads back as Chunk not found, because get treats the empty string as missing. |
| `ChunkStoreProperties.TotalsAgree` | src/IndexedDBChunkManager.js:41-42 | The fold of the children's records reads only the complete tier's entries at the children. |
| `ChunkStoreProperties.ScanAgrees` | src/IndexedDBChunkManager.js:33-43 | Two databases that agree on the complete tier at the children give the loop the same verdict. When complete, they also give the same depth and size. |
| `ChunkStoreProperties.PersistReadsVerdict` | src/IndexedDBChunkManager.js:44-52 | The final write depends only on the loop's verdict, and on the depth and size of a complete chunk. |
| `ChunkStoreProperties.PersistAgain` | src/IndexedDBChunkManager.js:44-52 | Repeating a successful final write through the instances it left behind gives the same answer and changes nothing. |
| `ChunkStoreProperties.WriteKeepsChildren` | src/IndexedDBChunkManager.js:44-52 | Storing a chunk that is not its own child leaves the complete tier's entries at its children unchanged. |
| `ChunkStoreProperties.StoreIsIdempotent` | src/IndexedDBChunkManager.js:25-53 | Storing the same content twice in a row gives the same answer and leaves the database as the first store left it. |
| `ChunkStoreProperties.StoreLeaf` | src/IndexedDBChunkManager.js:25-46 | A 6-character leaf stored into empty tiers is complete, with depth 0 and size 6. It is the only entry of the complete tier, and the instances are unchanged. |
| `ChunkStoreProperties.StoreParent` | src/IndexedDBChunkManager.js:25-46 | The leaf's 8-character parent is then complete, with depth 1 and size 14. It is added beside the leaf. |
| `ChunkStoreProperties.StoreOrphan` | src/IndexedDBChunkManager.js:25-68 | A chunk whose only child is unknown is stored incomplete and reads back incomplete. |
| `ChunkStoreProperties.LeafParentOrphan` | src/IndexedDBChunkManager.js:25-68 | Into empty tiers: a 6-character leaf is stored complete with depth 0 and size 6. Its 8-character parent is complete with depth 1 and size 14. A chunk whose only child is unknown is stored incomplete and reads back incomplete. |
| `ChunkStoreProperties.UpgradeFreshDatabase` | src/IndexedDBChunkManager.js:13-17 | Upgrading an empty database with the manager's two registrations creates `complete-chunks` and `incomplete-chunks`, empty, and satisfies the tier invariant. |
| `ChunkStoreProperties.UpgradeLegacyDatabase` | src/IndexedDBChunkManager.js:13-17 | Upgrading a database that holds only the legacy `chunk` store keeps it as the incomplete tier and creates only `complete-chunks`. |
| `ChunkStoreProperties.LegacyStoreIsNeverDuplicated` | src/IndexedDBBase.js:40-48 | Over a database holding the legacy `chunk` store, any result meeting the upgrade's promise rebinds the incomplete instance to `chunk` and never creates `incomplete-chunks` beside it. |

## Left out

- `IndexedDBNVD`, `WebClientTransceiver` and `index.js` are not part of this model.
- Promise and callback mechanics are not modelled. Each operation is one atomic function, and interleaved calls and concurrency are out of scope.
- `connect`'s `onblocked` warning and the logger are not modelled; they have no effect on results.
- When the engine fires the upgrade is not modelled. It fires on version change, and the version is fixed at 3. `Upgrade` is the handler alone, applied to a database and the registry of instances.
- `ChunkManager.addInstance` (`init`) belongs to the core library and is not part of this model.
- `ChunkingUtils.getChildrenIdentifiers` and `generateIdentifierForData` are uninterpreted functions. A rejection by either helper is not modelled.
- I/O faults are deterministic: a rejected request is named by its site (open, read or write of a store and key). The engine's own error objects are one `TransportError` per site. Faults of `db.transaction` other than a missing store are not modelled.
- `IndexedDBBase.Put`: returns no value. The source resolves with `request.result`, the stored key, which the chunk manager never uses.
- `IndexedDBBase.GetStore`: faults are fixed for the whole call, so the second `connect()` of the compatible-name retry cannot fail once the first open succeeded. The model never yields a switched instance together with an open error, which the source can produce.
- Numbers are integers. Floating point, NaN and `Math.max` on non-numbers are not modelled, and the `depth`/`size` of records are natural numbers.
- Content length is the number of characters. JavaScript counts UTF-16 code units, which differ only outside the base64 alphabet.
- `IndexedDBChunkManager.StoreChunkContents`: requires the tier invariant `Valid`. The complete tier must hold only records and the incomplete tier only strings. The source assumes this of its own stores, and every operation preserves it.
- `IndexedDBChunkManager.GetChunkContents`: requires the same invariant `Valid`.
- `ChunkStoreProperties.StoreThenGetIncomplete`: holds only for non-empty content whose identifier the complete tier lacks. A complete-tier hit wins, and empty content reads back as missing (`EmptyIncompleteChunkReadsAsMissing`).
- `ChunkStoreProperties.StoreIsIdempotent`: assumes a chunk is never its own child. Identifiers are content hashes, so this cannot happen short of a hash collision.

=== FILE: chunk_manager.dfy ===
/**
  The two-tier chunk store. A chunk whose children are all found in the
  complete tier is stored there with its derived depth and size; any other
  chunk is stored, as raw content, in the incomplete tier. Reads try the
  complete tier first and then the incomplete one.
 */
module IndexedDBChunkManager {
  import opened JsValues
  import opened Engine
  import opened IndexedDBBase

  const CompleteChunks: StoreName := "complete-chunks"
  const IncompleteChunks: StoreName := "incomplete-chunks"
  /** The name the incomplete tier had in earlier versions. */
  const LegacyChunks: StoreName := "chunk"
  /** The fixed cap on the length of a chunk's encoded content. */
  const MaxChunkSize: nat := 1024

  /** The two content-identity helpers of the core library, left
      uninterpreted: the child identifiers a chunk's content references,
      and the identifier derived from the content. */
  datatype ChunkIdentity = ChunkIdentity(childrenOf: string -> seq<Key>, identifierFor: string -> Key)

  /** The manager's two key-value instances. */
  datatype ChunkManager = ChunkManager(complete: Handle, incomplete: Handle)

  /** The manager as its constructor builds it. */
  function NewChunkManager(): ChunkManager {
    ChunkManager(Handle(CompleteChunks, None), Handle(IncompleteChunks, Some(LegacyChunks)))
  }

  predicate RecordsOnly(store: ObjectStore) {
    forall k :: k in store ==> store[k].ChunkRecord?
  }

  predicate StringsOnly(store: ObjectStore) {
    forall k :: k in store ==> store[k].Str?
  }

  /** What the manager relies on: the complete tier holds only
      `{base64data, depth, size}` records, the incomplete tier (under either
      of its names) only raw content, and the two tiers are distinct stores. */
  predicate Valid(db: Database, m: ChunkManager) {
    && m.complete.compatibleName == None
    && m.incomplete.compatibleName == Some(LegacyChunks)
    && m.incomplete.storeName in {IncompleteChunks, LegacyChunks}
    && m.complete.storeName !in {IncompleteChunks, LegacyChunks}
    && (m.complete.storeName in db.stores ==> RecordsOnly(db.stores[m.complete.storeName]))
    && (IncompleteChunks in db.stores ==> StringsOnly(db.stores[IncompleteChunks]))
    && (LegacyChunks in db.stores ==> StringsOnly(db.stores[LegacyChunks]))
  }

  function Max(a: int, b: int): int {
    if a < b then b else a
  }

  // ---------------------------------------------------------------------
  // Reference definitions for the children of a chunk
  // ---------------------------------------------------------------------

  /** A child the complete tier yields: the database opens, the read is not
      rejected, and a truthy entry is stored under the identifier. */
  predicate Resolvable(db: Database, env: Env, m: ChunkManager, child: Key) {
    && OpenSite !in env.failing
    && ReadSite(m.complete.storeName, child) !in env.failing
    && Present(db, m.complete.storeName, child)
  }

  /** The record stored in the complete tier under a child identifier. */
  function ChildRecord(db: Database, m: ChunkManager, child: Key): (r: Value)
    requires Valid(db, m)
    requires Present(db, m.complete.storeName, child)
    ensures r.ChunkRecord?
  {
    db.stores[m.complete.storeName][child]
  }

  predicate AllResolvable(db: Database, env: Env, m: ChunkManager, children: seq<Key>) {
    forall i :: 0 <= i < |children| ==> Resolvable(db, env, m, children[i])
  }

  /** The total size of the complete-tier records of `ids`, summed from the
      last child to the first. */
  function SizeSum(db: Database, m: ChunkManager, ids: seq<Key>): nat
    requires Valid(db, m)
    requires forall i :: 0 <= i < |ids| ==> Present(db, m.complete.storeName, ids[i])
    decreases |ids|
  {
    if ids == [] then 0
    else SizeSum(db, m, ids[..|ids| - 1]) + ChildRecord(db, m, ids[|ids| - 1]).size
  }

  lemma {:induction false} SizeSumCons(db: Database, m: ChunkManager, ids: seq<Key>)
    requires Valid(db, m)
    requires forall i :: 0 <= i < |ids| ==> Present(db, m.complete.storeName, ids[i])
    requires ids != []
    ensures SizeSum(db, m, ids) == ChildRecord(db, m, ids[0]).size + SizeSum(db, m, ids[1..])
    decreases |ids|
  {
    if |ids| > 1 {
      var front := ids[..|ids| - 1];
      SizeSumCons(db, m, front);
      assert front[1..] == ids[1..][..|ids[1..]| - 1];
      assert front[0] == ids[0];
    } else {
      assert ids[..0] == [] && ids[1..] == [];
    }
  }

  // ---------------------------------------------------------------------
  // storeChunkContents
  // ---------------------------------------------------------------------

  /** The state of the child loop when it ends. */
  datatype Scan = Scan(log: seq<Event>, complete: bool, depth: nat, size: nat)

  /** What the outcome of the child loop says about the children: it is
      complete exactly when every child resolves; the children looked up are,
      in order, a prefix of the list, all of them when complete, otherwise
      ending at a failing child after children that all resolved; and every
      connection it opened is closed. */
  predicate ScanFits(db: Database, env: Env, m: ChunkManager, children: seq<Key>, s: Scan) {
    && (s.complete <==> AllResolvable(db, env, m, children))
    && |Lookups(s.log)| <= |children|
    && Lookups(s.log) == children[..|Lookups(s.log)|]
    && (s.complete ==> |Lookups(s.log)| == |children|)
    && (!s.complete ==>
          var k := |Lookups(s.log)|;
          0 < k && !Resolvable(db, env, m, children[k - 1]) &&
          forall i :: 0 <= i < k - 1 ==> Resolvable(db, env, m, children[i]))
    && Connection(s.log, false) == Some(false)
  }

  /** A lookup of the first child that succeeds, followed by a loop over the
      rest that fits the rest, fits the whole list. */
  lemma {:induction false} ScanStep(db: Database, env: Env, m: ChunkManager, children: seq<Key>,
                                    first: seq<Event>, rest: Scan)
    requires children != []
    requires Resolvable(db, env, m, children[0])
    requires Lookups(first) == [children[0]] && Connection(first, false) == Some(false)
    requires ScanFits(db, env, m, children[1..], rest)
    ensures ScanFits(db, env, m, children, Scan(first + rest.log, rest.complete, rest.depth, rest.size))
  {
    ConnectionAppend(first, rest.log, false);
    LookupsAppend(first, rest.log);
    assert [children[0]] + children[1..][..|Lookups(rest.log)|] == children[..1 + |Lookups(rest.log)|];
    assert forall i :: 1 <= i < |children| ==> children[i] == children[1..][i - 1];
  }

  /** The depth and size a chunk accumulates from its children. */
  datatype Measures = Measures(depth: nat, size: nat)

  /** The loop's arithmetic on its own: fold the children's records, in
      order, into a running depth and size. */
  function Totals(db: Database, m: ChunkManager, children: seq<Key>, depth: nat, size: nat): Measures
    requires Valid(db, m)
    requires forall i :: 0 <= i < |children| ==> Present(db, m.complete.storeName, children[i])
    decreases |children|
  {
    if children == [] then Measures(depth, size)
    else
      var c := ChildRecord(db, m, children[0]);
      assert forall i :: 0 <= i < |children[1..]| ==> children[1..][i] == children[i + 1];
      Totals(db, m, children[1..], Max(depth, c.depth + 1), size + c.size)
  }

  /** The child loop: look each child up in the complete tier, in order,
      adding its size and raising the depth, and stop at the first lookup
      that fails for whatever reason. */
  function ScanChildren(db: Database, env: Env, m: ChunkManager, children: seq<Key>, depth: nat, size: nat): (s: Scan)
    requires Valid(db, m)
    ensures ScanFits(db, env, m, children, s)
    // a complete loop has folded every child's record into depth and size
    ensures s.complete ==> Measures(s.depth, s.size) == Totals(db, m, children, depth, size)
    decreases |children|
  {
    if children == [] then Scan([], true, depth, size)
    else
      var g := Get(db, env, m.complete, children[0]);
      match g.result
      case Err(_) =>
        assert children[..1] == [children[0]];
        Scan(g.log, false, depth, size)
      case Ok(child) =>
        var rest := ScanChildren(db, env, m, children[1..], Max(depth, child.depth + 1), size + child.size);
        ScanStep(db, env, m, children, g.log, rest);
        Scan(g.log + rest.log, rest.complete, rest.depth, rest.size)
  }

  /** The fold's size is the start plus the sum of the children's sizes,
      and its depth is the larger of the start and the greatest child depth
      plus one. */
  lemma {:induction false} TotalsBounds(db: Database, m: ChunkManager, children: seq<Key>, depth: nat, size: nat)
    requires Valid(db, m)
    requires forall i :: 0 <= i < |children| ==> Present(db, m.complete.storeName, children[i])
    ensures var t := Totals(db, m, children, depth, size);
            && t.size == size + SizeSum(db, m, children)
            && t.depth >= depth
            && (forall i :: 0 <= i < |children| ==> t.depth >= ChildRecord(db, m, children[i]).depth + 1)
            && (t.depth == depth ||
                exists i :: 0 <= i < |children| && t.depth == ChildRecord(db, m, children[i]).depth + 1)
    decreases |children|
  {
    if children != [] {
      var child := ChildRecord(db, m, children[0]);
      var d := Max(depth, child.depth + 1);
      assert forall i :: 1 <= i < |children| ==> children[i] == children[1..][i - 1];
      TotalsBounds(db, m, children[1..], d, size + child.size);
      SizeSumCons(db, m, children);
      var rest := Totals(db, m, children[1..], d, size + child.size);
      if rest.depth != d {
        var j :| 0 <= j < |children[1..]| && rest.depth == ChildRecord(db, m, children[1..][j]).depth + 1;
        assert children[1..][j] == children[j + 1];
      }
    }
  }

  /** When every child resolves, the loop's size is the start plus the sum of
      the children's sizes, and its depth is the larger of the start and the
      greatest child depth plus one. */
  lemma ScanTotals(db: Database, env: Env, m: ChunkManager, children: seq<Key>, depth: nat, size: nat)
    requires Valid(db, m)
    requires AllResolvable(db, env, m, children)
    ensures var s := ScanChildren(db, env, m, children, depth, size);
            && s.size == size + SizeSum(db, m, children)
            && s.depth >= depth
            && (forall i :: 0 <= i < |children| ==> s.depth >= ChildRecord(db, m, children[i]).depth + 1)
            && (s.depth == depth ||
                exists i :: 0 <= i < |children| && s.depth == ChildRecord(db, m, children[i]).depth + 1)
  {
    TotalsBounds(db, m, children, depth, size);
  }

  /** What `storeChunkContents` returns; depth and size are absent for an
      incomplete chunk. */
  datatype Stored = Stored(identifier: Key, base64data: string, complete: bool, depth: Option<nat>, size: Option<nat>)

  datatype StoreOutcome = StoreOutcome(db: Database, manager: ChunkManager, log: seq<Event>, result: Result<Stored>)

  /** The error a failed final write to the store `target` rejects with:
      the open error, NotFoundError for a missing store, or else the write
      request's own error. */
  function WriteError(db: Database, env: Env, target: StoreName, id: Key): Error {
    if OpenSite in env.failing then TransportError(OpenSite)
    else if target !in db.stores then NotFoundError(target)
    else TransportError(WriteSite(target, id))
  }

  /** The incomplete instance after a write through it: switched to its
      compatible name exactly when the database opens, its active store is
      missing and a retry is possible. */
  function IncompleteAfterWrite(db: Database, env: Env, m: ChunkManager): Handle {
    if OpenSite !in env.failing && m.incomplete.storeName !in db.stores && CanRetry(m.incomplete)
    then Switched(m.incomplete) else m.incomplete
  }

  /** The write of a complete chunk: its record, with depth and size, to
      the complete tier and nowhere else. */
  function PersistComplete(db: Database, env: Env, m: ChunkManager, id: Key, content: string, depth: nat, size: nat)
    : (o: StoreOutcome)
    requires Valid(db, m)
    ensures Valid(o.db, o.manager) && o.manager == m
    ensures o.result.Err? ==> o.db == db && !o.result.error.HasNotFoundFlag()
    ensures o.result.Ok? <==> OpenSite !in env.failing && m.complete.storeName in db.stores &&
                              WriteSite(m.complete.storeName, id) !in env.failing
    ensures o.result.Err? ==> o.result.error == WriteError(db, env, m.complete.storeName, id)
    ensures o.result.Ok? ==>
              o.result.value == Stored(id, content, true, Some(depth), Some(size)) &&
              o.db.stores == db.stores[m.complete.storeName :=
                                       db.stores[m.complete.storeName][id := ChunkRecord(content, depth, size)]]
    ensures Connection(o.log, false) == Some(false) && Lookups(o.log) == []
  {
    var p := Put(db, env, m.complete, id, ChunkRecord(content, depth, size));
    var result := if p.result.Ok? then Ok(Stored(id, content, true, Some(depth), Some(size)))
                  else Err(p.result.error);
    StoreOutcome(p.db, m.(complete := p.handle), p.log, result)
  }

  /** The write of an incomplete chunk: its raw content alone to the
      incomplete tier, under its current or its legacy name, and nowhere
      else. */
  function PersistIncomplete(db: Database, env: Env, m: ChunkManager, id: Key, content: string): (o: StoreOutcome)
    requires Valid(db, m)
    ensures Valid(o.db, o.manager) && o.manager.complete == m.complete
    // the active name is kept while its store exists; only a missing store
    // switches the instance to the legacy name
    ensures o.manager.incomplete == IncompleteAfterWrite(db, env, m)
    ensures o.result.Err? ==> o.db == db && !o.result.error.HasNotFoundFlag()
    ensures o.result.Ok? <==> OpenSite !in env.failing &&
                              (m.incomplete.storeName in db.stores || LegacyChunks in db.stores) &&
                              WriteSite(o.manager.incomplete.storeName, id) !in env.failing
    ensures o.result.Err? ==> o.result.error == WriteError(db, env, o.manager.incomplete.storeName, id)
    ensures o.result.Ok? ==>
              o.result.value == Stored(id, content, false, None, None) &&
              o.manager.incomplete.storeName in db.stores &&
              o.db.stores == db.stores[o.manager.incomplete.storeName :=
                                       db.stores[o.manager.incomplete.storeName][id := Str(content)]]
    ensures Connection(o.log, false) == Some(false) && Lookups(o.log) == []
  {
    var p := Put(db, env, m.incomplete, id, Str(content));
    assert p.handle == IncompleteAfterWrite(db, env, m);
    var result := if p.result.Ok? then Ok(Stored(id, content, false, None, None))
                  else Err(p.result.error);
    StoreOutcome(p.db, m.(incomplete := p.handle), p.log, result)
  }

  /** The final write, to the tier the child loop chose. */
  function Persist(db: Database, env: Env, m: ChunkManager, id: Key, content: string, scan: Scan): (o: StoreOutcome)
    requires Valid(db, m)
    ensures Valid(o.db, o.manager)
    ensures o.manager.complete == m.complete
    ensures scan.complete ==> o.manager == m
    ensures !scan.complete ==> o.manager.incomplete == IncompleteAfterWrite(db, env, m)
    ensures o.result.Err? ==> o.db == db && !o.result.error.HasNotFoundFlag()
    ensures o.result.Err? ==>
              o.result.error == WriteError(db, env, if scan.complete then m.complete.storeName
                                                    else o.manager.incomplete.storeName, id)
    ensures o.result.Ok? ==>
              o.result.value.identifier == id && o.result.value.base64data == content &&
              o.result.value.complete == scan.complete
    // complete: the record is upserted into the complete tier and nowhere else
    ensures scan.complete ==>
              (o.result.Ok? <==> OpenSite !in env.failing && m.complete.storeName in db.stores &&
                                 WriteSite(m.complete.storeName, id) !in env.failing)
    ensures o.result.Ok? && scan.complete ==>
              o.result.value.depth == Some(scan.depth) && o.result.value.size == Some(scan.size) &&
              o.db.stores == db.stores[m.complete.storeName :=
                                       db.stores[m.complete.storeName][id := ChunkRecord(content, scan.depth, scan.size)]]
    // incomplete: the raw content is upserted into the incomplete tier, under
    // its current or its legacy name, and nowhere else
    ensures !scan.complete ==>
              (o.result.Ok? <==> OpenSite !in env.failing &&
                                 (m.incomplete.storeName in db.stores || LegacyChunks in db.stores) &&
                                 WriteSite(o.manager.incomplete.storeName, id) !in env.failing)
    ensures o.result.Ok? && !scan.complete ==>
              o.result.value.depth == None && o.result.value.size == None &&
              o.manager.incomplete.storeName in db.stores &&
              o.db.stores == db.stores[o.manager.incomplete.storeName :=
                                       db.stores[o.manager.incomplete.storeName][id := Str(content)]]
    ensures Connection(o.log, false) == Some(false) && Lookups(o.log) == []
  {
    if scan.complete then PersistComplete(db, env, m, id, content, scan.depth, scan.size)
    else PersistIncomplete(db, env, m, id, content)
  }

  /** The events of one `storeChunkContents` past the size check: the
      children extracted, the child lookups, the identifier generated, the
      final write. */
  function StoreLog(scanLog: seq<Event>, putLog: seq<Event>): (log: seq<Event>)
    requires Connection(scanLog, false) == Some(false) && Connection(putLog, false) == Some(false)
    requires Lookups(putLog) == []
    ensures Connection(log, false) == Some(false)
    ensures Lookups(log) == Lookups(scanLog)
  {
    var head := [ChildrenExtracted] + scanLog + [IdentifierGenerated];
    ConnectionAppend([ChildrenExtracted], scanLog, false);
    ConnectionAppend([ChildrenExtracted] + scanLog, [IdentifierGenerated], false);
    ConnectionAppend(head, putLog, false);
    LookupsAppend([ChildrenExtracted], scanLog);
    LookupsAppend([ChildrenExtracted] + scanLog, [IdentifierGenerated]);
    LookupsAppend(head, putLog);
    head + putLog
  }

  function StoreChunkContents(db: Database, env: Env, m: ChunkManager, ids: ChunkIdentity, content: string): (o: StoreOutcome)
    requires Valid(db, m)
    ensures Valid(o.db, o.manager)
    ensures o.manager.complete == m.complete
    // only the incomplete write can switch an instance to its compatible name
    ensures (|content| > MaxChunkSize || AllResolvable(db, env, m, ids.childrenOf(content))) ==> o.manager == m
    // over the cap: fails before anything is consulted or written
    ensures |content| > MaxChunkSize ==>
              o == StoreOutcome(db, m, [], Err(SizeLimitExceeded(|content|)))
    // a failure changes nothing, and never carries the notFound flag
    ensures o.result.Err? ==> o.db == db && !o.result.error.HasNotFoundFlag()
    ensures o.result.Ok? ==>
              o.result.value.identifier == ids.identifierFor(content) &&
              o.result.value.base64data == content
    // complete exactly when every child is found in the complete tier
    ensures o.result.Ok? ==>
              (o.result.value.complete <==> AllResolvable(db, env, m, ids.childrenOf(content)))
    // a complete chunk is upserted into the complete tier only, an incomplete
    // one, as raw content, into the incomplete tier only
    ensures o.result.Ok? && o.result.value.complete ==>
              o.result.value.depth.Some? && o.result.value.size.Some? &&
              m.complete.storeName in db.stores &&
              o.db.stores == db.stores[m.complete.storeName :=
                                       db.stores[m.complete.storeName][ids.identifierFor(content) :=
                                         ChunkRecord(content, o.result.value.depth.value, o.result.value.size.value)]]
    ensures o.result.Ok? && !o.result.value.complete ==>
              o.result.value.depth == None && o.result.value.size == None &&
              o.manager.incomplete.storeName in db.stores &&
              o.db.stores == db.stores[o.manager.incomplete.storeName :=
                                       db.stores[o.manager.incomplete.storeName][ids.identifierFor(content) := Str(content)]]
    // the connection is closed on every exit path
    ensures Connection(o.log, false) == Some(false)
    // the children looked up are a prefix of the children: all of them when
    // every child resolves, otherwise ending at the first one that failed
    ensures |Lookups(o.log)| <= |ids.childrenOf(content)|
    ensures Lookups(o.log) == ids.childrenOf(content)[..|Lookups(o.log)|]
    ensures |content| <= MaxChunkSize && AllResolvable(db, env, m, ids.childrenOf(content)) ==>
              |Lookups(o.log)| == |ids.childrenOf(content)|
    ensures |content| <= MaxChunkSize && !AllResolvable(db, env, m, ids.childrenOf(content)) ==>
              var k := |Lookups(o.log)|;
              0 < k && !Resolvable(db, env, m, ids.childrenOf(content)[k - 1]) &&
              forall i :: 0 <= i < k - 1 ==> Resolvable(db, env, m, ids.childrenOf(content)[i])
    // within the cap, the call succeeds exactly when the connection opens and
    // the final write reaches an existing store of the chosen tier
    ensures |content| <= MaxChunkSize ==>
              (o.result.Ok? <==>
                 OpenSite !in env.failing &&
                 if AllResolvable(db, env, m, ids.childrenOf(content)) then
                   m.complete.storeName in db.stores &&
                   WriteSite(m.complete.storeName, ids.identifierFor(content)) !in env.failing
                 else
                   (m.incomplete.storeName in db.stores || LegacyChunks in db.stores) &&
                   WriteSite(o.manager.incomplete.storeName, ids.identifierFor(content)) !in env.failing)
    // the instance written through is switched only when its store is missing
    ensures |content| <= MaxChunkSize && !AllResolvable(db, env, m, ids.childrenOf(content)) ==>
              o.manager.incomplete == IncompleteAfterWrite(db, env, m)
    // a failure within the cap is the final write's error
    ensures |content| <= MaxChunkSize && o.result.Err? ==>
              o.result.error ==
                WriteError(db, env, if AllResolvable(db, env, m, ids.childrenOf(content)) then m.complete.storeName
                                    else o.manager.incomplete.storeName, ids.identifierFor(content))
  {
    if |content| > MaxChunkSize then
      StoreOutcome(db, m, [], Err(SizeLimitExceeded(|content|)))
    else
      var children := ids.childrenOf(content);
      var scan := ScanChildren(db, env, m, children, 0, |content|);
      var id := ids.identifierFor(content);
      var p := Persist(db, env, m, id, content, scan);
      p.(log := StoreLog(scan.log, p.log))
  }

  /** The measures a complete chunk must carry: its own length plus the
      children's sizes, and the greatest child depth plus one (zero for a
      leaf). */
  predicate MeasuresFit(db: Database, m: ChunkManager, children: seq<Key>, length: nat, depth: nat, size: nat)
    requires Valid(db, m)
    requires forall i :: 0 <= i < |children| ==> Present(db, m.complete.storeName, children[i])
  {
    && size == length + SizeSum(db, m, children)
    && (forall i :: 0 <= i < |children| ==> depth >= ChildRecord(db, m, children[i]).depth + 1)
    && (children == [] ==> depth == 0)
    && (children != [] ==> exists i :: 0 <= i < |children| && depth == ChildRecord(db, m, children[i]).depth + 1)
  }

  /** The child loop as `storeChunkContents` starts it, at depth zero and
      at the chunk's own length. */
  lemma ScanFromZero(db: Database, env: Env, m: ChunkManager, children: seq<Key>, length: nat)
    requires Valid(db, m)
    requires AllResolvable(db, env, m, children)
    ensures var s := ScanChildren(db, env, m, children, 0, length);
            MeasuresFit(db, m, children, length, s.depth, s.size)
  {
    ScanTotals(db, env, m, children, 0, length);
  }

  /** The write uses the outcome of the child loop. */
  lemma StoreUsesScan(db: Database, env: Env, m: ChunkManager, ids: ChunkIdentity, content: string)
    requires Valid(db, m)
    requires |content| <= MaxChunkSize
    ensures var o := StoreChunkContents(db, env, m, ids, content);
            var p := Persist(db, env, m, ids.identifierFor(content), content,
                             ScanChildren(db, env, m, ids.childrenOf(content), 0, |content|));
            o.result == p.result && o.db == p.db && o.manager == p.manager
  {
  }

  /** A complete chunk's depth and size are the ones its children promise. */
  lemma CompleteChunkMeasures(db: Database, env: Env, m: ChunkManager, ids: ChunkIdentity, content: string)
    requires Valid(db, m)
    requires StoreChunkContents(db, env, m, ids, content).result.Ok?
    requires StoreChunkContents(db, env, m, ids, content).result.value.complete
    ensures AllResolvable(db, env, m, ids.childrenOf(content))
    ensures var r := StoreChunkContents(db, env, m, ids, content).result.value;
            r.depth.Some? && r.size.Some? &&
            MeasuresFit(db, m, ids.childrenOf(content), |content|, r.depth.value, r.size.value)
  {
    var children := ids.childrenOf(content);
    var s := ScanChildren(db, env, m, children, 0, |content|);
    StoreUsesScan(db, env, m, ids, content);
    var r := StoreChunkContents(db, env, m, ids, content).result.value;
    assert s.complete;
    assert r.depth == Some(s.depth) && r.size == Some(s.size);
    ScanFromZero(db, env, m, children, |content|);
  }

  /** A leaf (no children) within the cap is complete, of depth zero and of
      its own length, whenever its write succeeds. */
  lemma LeafChunkIsComplete(db: Database, env: Env, m: ChunkManager, ids: ChunkIdentity, content: string)
    requires Valid(db, m)
    requires ids.childrenOf(content) == []
    requires StoreChunkContents(db, env, m, ids, content).result.Ok?
    ensures StoreChunkContents(db, env, m, ids, content).result.value ==
            Stored(ids.identifierFor(content), content, true, Some(0), Some(|content|))
  {
    CompleteChunkMeasures(db, env, m, ids, content);
  }

  // ---------------------------------------------------------------------
  // getChunkContents
  // ---------------------------------------------------------------------

  /** What `getChunkContents` returns; depth and size are absent for a chunk
      read from the incomplete tier. */
  datatype Fetched = Fetched(base64data: string, complete: bool, depth: Option<nat>, size: Option<nat>)

  datatype FetchOutcome = FetchOutcome(manager: ChunkManager, log: seq<Event>, result: Result<Fetched>)

  /** A lookup that reaches an existing store and finds nothing truthy. */
  predicate Misses(db: Database, env: Env, name: StoreName, id: Key) {
    && OpenSite !in env.failing
    && ReadSite(name, id) !in env.failing
    && name in db.stores
    && !Present(db, name, id)
  }

  function GetChunkContents(db: Database, env: Env, m: ChunkManager, id: Key): (o: FetchOutcome)
    requires Valid(db, m)
    ensures Valid(db, o.manager) && o.manager.complete == m.complete
    // only a fall-through to the incomplete tier can switch its instance
    ensures var first := Get(db, env, m.complete, id).result;
            !(first.Err? && first.error.HasNotFoundFlag()) ==> o.manager == m
    // a hit in the complete tier wins, with the stored depth and size
    ensures Resolvable(db, env, m, id) ==>
              var rec := ChildRecord(db, m, id);
              o.result == Ok(Fetched(rec.base64data, true, Some(rec.depth), Some(rec.size)))
    // any other failure of the first lookup propagates unchanged
    ensures var first := Get(db, env, m.complete, id).result;
            first.Err? && !first.error.HasNotFoundFlag() ==> o.result == Err(first.error)
    // on not-found, the incomplete tier answers
    ensures var first := Get(db, env, m.complete, id).result;
            var second := Get(db, env, m.incomplete, id);
            first.Err? && first.error.HasNotFoundFlag() ==>
              && o.manager.incomplete == second.handle
              && (second.result.Ok? ==>
                    second.result.value.Str? &&
                    o.result == Ok(Fetched(second.result.value.s, false, None, None)))
              && (second.result.Err? && second.result.error.HasNotFoundFlag() ==> o.result == Err(ChunkNotFound))
              && (second.result.Err? && !second.result.error.HasNotFoundFlag() ==> o.result == Err(second.result.error))
    // the chunk is reported missing exactly when both tiers miss
    ensures o.result == Err(ChunkNotFound) <==>
              Misses(db, env, m.complete.storeName, id) && Misses(db, env, o.manager.incomplete.storeName, id)
    ensures o.result.Ok? && !o.result.value.complete ==>
              Present(db, o.manager.incomplete.storeName, id) &&
              db.stores[o.manager.incomplete.storeName][id] == Str(o.result.value.base64data)
    ensures Connection(o.log, false) == Some(false)
  {
    var first := Get(db, env, m.complete, id);
    match first.result
    case Ok(rec) =>
      FetchOutcome(m, first.log, Ok(Fetched(rec.base64data, true, Some(rec.depth), Some(rec.size))))
    case Err(e) =>
      if !e.HasNotFoundFlag() then FetchOutcome(m, first.log, Err(e))
      else
        var second := Get(db, env, m.incomplete, id);
        ConnectionAppend(first.log, second.log, false);
        var log := first.log + second.log;
        match second.result
        case Ok(content) =>
          FetchOutcome(m.(incomplete := second.handle), log, Ok(Fetched(content.s, false, None, None)))
        case Err(e2) =>
          if e2.HasNotFoundFlag() then FetchOutcome(m.(incomplete := second.handle), log, Err(ChunkNotFound))
          else FetchOutcome(m.(incomplete := second.handle), log, Err(e2))
  }
}

=== FILE: chunk_properties.dfy ===
/**
  Properties that relate several calls of the chunk store: what a read
  returns after a write, that repeating a write changes nothing, and the
  leaf / parent / orphan walk-through.
 */
module ChunkStoreProperties {
  import opened JsValues
  import opened Engine
  import opened IndexedDBBase
  import opened IndexedDBChunkManager

  /** A chunk written to the complete tier reads back complete, with the
      depth and size the write reported. */
  lemma StoreThenGetComplete(db: Database, env: Env, m: ChunkManager, ids: ChunkIdentity, content: string)
    requires Valid(db, m)
    requires StoreChunkContents(db, env, m, ids, content).result.Ok?
    requires StoreChunkContents(db, env, m, ids, content).result.value.complete
    requires ReadSite(m.complete.storeName, ids.identifierFor(content)) !in env.failing
    ensures var o := StoreChunkContents(db, env, m, ids, content);
            GetChunkContents(o.db, env, o.manager, ids.identifierFor(content)).result ==
            Ok(Fetched(content, true, o.result.value.depth, o.result.value.size))
  {
    var o := StoreChunkContents(db, env, m, ids, content);
    var id := ids.identifierFor(content);
    assert o.db.stores[m.complete.storeName][id] ==
           ChunkRecord(content, o.result.value.depth.value, o.result.value.size.value);
    assert Resolvable(o.db, env, o.manager, id);
  }

  /** A chunk written to the incomplete tier, whose identifier the complete
      tier lacks, reads back incomplete with the same content, provided the
      content is not empty. */
  lemma StoreThenGetIncomplete(db: Database, env: Env, m: ChunkManager, ids: ChunkIdentity, content: string)
    requires Valid(db, m)
    requires content != []
    requires StoreChunkContents(db, env, m, ids, content).result.Ok?
    requires !StoreChunkContents(db, env, m, ids, content).result.value.complete
    requires Misses(db, env, m.complete.storeName, ids.identifierFor(content))
    requires ReadSite(StoreChunkContents(db, env, m, ids, content).manager.incomplete.storeName,
                      ids.identifierFor(content)) !in env.failing
    ensures var o := StoreChunkContents(db, env, m, ids, content);
            GetChunkContents(o.db, env, o.manager, ids.identifierFor(content)).result ==
            Ok(Fetched(content, false, None, None))
  {
    var o := StoreChunkContents(db, env, m, ids, content);
    var id := ids.identifierFor(content);
    var n := o.manager.incomplete.storeName;
    assert o.db.stores[m.complete.storeName] == db.stores[m.complete.storeName];
    assert Misses(o.db, env, o.manager.complete.storeName, id);
    assert o.db.stores[n][id] == Str(content);
    assert Present(o.db, n, id);
    var first := Get(o.db, env, o.manager.complete, id);
    assert first.result == Err(NotFound(id));
    var second := Get(o.db, env, o.manager.incomplete, id);
    assert second.handle == o.manager.incomplete;
    assert second.result == Ok(Str(content));
  }

  /** `get` treats a falsy entry as missing, so empty content that lands in
      the incomplete tier is reported as not found, although its write
      succeeded. */
  lemma EmptyIncompleteChunkReadsAsMissing(db: Database, env: Env, m: ChunkManager, ids: ChunkIdentity)
    requires Valid(db, m)
    requires StoreChunkContents(db, env, m, ids, "").result.Ok?
    requires !StoreChunkContents(db, env, m, ids, "").result.value.complete
    requires Misses(db, env, m.complete.storeName, ids.identifierFor(""))
    requires ReadSite(StoreChunkContents(db, env, m, ids, "").manager.incomplete.storeName,
                      ids.identifierFor("")) !in env.failing
    ensures var o := StoreChunkContents(db, env, m, ids, "");
            GetChunkContents(o.db, env, o.manager, ids.identifierFor("")).result == Err(ChunkNotFound)
  {
    var o := StoreChunkContents(db, env, m, ids, "");
    var id := ids.identifierFor("");
    var n := o.manager.incomplete.storeName;
    assert o.db.stores[m.complete.storeName] == db.stores[m.complete.storeName];
    assert Misses(o.db, env, o.manager.complete.storeName, id);
    assert o.db.stores[n][id] == Str("");
    assert Misses(o.db, env, n, id);
    var second := Get(o.db, env, o.manager.incomplete, id);
    assert second.handle == o.manager.incomplete;
  }

  /** Two databases agree on a store at the given keys: the store exists in
      both or in neither, and holds the same entries there. */
  predicate AgreeOn(db: Database, db': Database, name: StoreName, keys: seq<Key>) {
    && (name in db.stores <==> name in db'.stores)
    && (name in db.stores ==>
          forall i :: 0 <= i < |keys| ==>
            (keys[i] in db.stores[name] <==> keys[i] in db'.stores[name]) &&
            (keys[i] in db.stores[name] ==> db.stores[name][keys[i]] == db'.stores[name][keys[i]]))
  }

  /** The fold of the children's records reads only the complete tier at
      the children. */
  lemma {:induction false} TotalsAgree(db: Database, db': Database, m: ChunkManager, m': ChunkManager,
                                       children: seq<Key>, depth: nat, size: nat)
    requires Valid(db, m) && Valid(db', m')
    requires m'.complete == m.complete
    requires AgreeOn(db, db', m.complete.storeName, children)
    requires forall i :: 0 <= i < |children| ==> Present(db, m.complete.storeName, children[i])
    ensures forall i :: 0 <= i < |children| ==> Present(db', m.complete.storeName, children[i])
    ensures Totals(db, m, children, depth, size) == Totals(db', m', children, depth, size)
    decreases |children|
  {
    if children != [] {
      assert forall i :: 0 <= i < |children[1..]| ==> children[1..][i] == children[i + 1];
      var c := ChildRecord(db, m, children[0]);
      TotalsAgree(db, db', m, m', children[1..], Max(depth, c.depth + 1), size + c.size);
    }
  }

  /** Two databases that agree on the complete tier at the given children
      give the same child loop, up to its log: the same verdict, and, for a
      complete chunk, the same depth and size. */
  lemma ScanAgrees(db: Database, db': Database, env: Env, m: ChunkManager, m': ChunkManager,
                   children: seq<Key>, depth: nat, size: nat)
    requires Valid(db, m) && Valid(db', m')
    requires m'.complete == m.complete
    requires AgreeOn(db, db', m.complete.storeName, children)
    ensures var s := ScanChildren(db, env, m, children, depth, size);
            var s' := ScanChildren(db', env, m', children, depth, size);
            s.complete == s'.complete && (s.complete ==> s.depth == s'.depth && s.size == s'.size)
  {
    assert forall i :: 0 <= i < |children| ==>
             (Resolvable(db, env, m, children[i]) <==> Resolvable(db', env, m', children[i]));
    if AllResolvable(db, env, m, children) {
      TotalsAgree(db, db', m, m', children, depth, size);
    }
  }

  /** Repeating a successful final write, through the instances it left
      behind, answers the same and changes nothing. */
  lemma PersistAgain(db: Database, env: Env, m: ChunkManager, id: Key, content: string, s: Scan)
    requires Valid(db, m)
    requires Persist(db, env, m, id, content, s).result.Ok?
    ensures var p := Persist(db, env, m, id, content, s);
            var again := Persist(p.db, env, p.manager, id, content, s);
            again.result == p.result && again.db == p.db && again.manager == p.manager
  {
    var p := Persist(db, env, m, id, content, s);
    var again := Persist(p.db, env, p.manager, id, content, s);
    if s.complete {
      var c := m.complete.storeName;
      assert p.db.stores[c][id := ChunkRecord(content, s.depth, s.size)] == p.db.stores[c];
    } else {
      var n := p.manager.incomplete.storeName;
      assert GetStore(p.db, env, p.manager.incomplete).handle == p.manager.incomplete;
      assert again.result.Ok?;
      assert p.db.stores[n][id := Str(content)] == p.db.stores[n];
    }
  }

  /** The final write reads only the loop's verdict, and the depth and
      size of a complete chunk. */
  lemma PersistReadsVerdict(db: Database, env: Env, m: ChunkManager, id: Key, content: string, s: Scan, s': Scan)
    requires Valid(db, m)
    requires s.complete == s'.complete && (s.complete ==> s.depth == s'.depth && s.size == s'.size)
    ensures Persist(db, env, m, id, content, s) == Persist(db, env, m, id, content, s')
  {
  }

  /** The final write of a chunk that does not list itself as a child
      leaves the complete tier unchanged at its children. */
  lemma WriteKeepsChildren(db: Database, env: Env, m: ChunkManager, ids: ChunkIdentity, content: string)
    requires Valid(db, m)
    requires ids.identifierFor(content) !in ids.childrenOf(content)
    ensures var o := StoreChunkContents(db, env, m, ids, content);
            AgreeOn(db, o.db, m.complete.storeName, ids.childrenOf(content))
  {
  }

  /** Storing the same content again, with nothing else changed in between,
      returns the same answer and leaves the database as it was: a recorded
      depth and size do not change. A chunk never lists its own identifier
      among its children, as identifiers are content hashes. */
  lemma StoreIsIdempotent(db: Database, env: Env, m: ChunkManager, ids: ChunkIdentity, content: string)
    requires Valid(db, m)
    requires ids.identifierFor(content) !in ids.childrenOf(content)
    requires StoreChunkContents(db, env, m, ids, content).result.Ok?
    ensures var o := StoreChunkContents(db, env, m, ids, content);
            var again := StoreChunkContents(o.db, env, o.manager, ids, content);
            again.result == o.result && again.db == o.db
  {
    var o := StoreChunkContents(db, env, m, ids, content);
    var id := ids.identifierFor(content);
    var children := ids.childrenOf(content);
    WriteKeepsChildren(db, env, m, ids, content);
    ScanAgrees(db, o.db, env, m, o.manager, children, 0, |content|);
    StoreUsesScan(db, env, m, ids, content);
    StoreUsesScan(o.db, env, o.manager, ids, content);
    var s := ScanChildren(db, env, m, children, 0, |content|);
    PersistAgain(db, env, m, id, content, s);
    PersistReadsVerdict(o.db, env, o.manager, id, content, s, ScanChildren(o.db, env, o.manager, children, 0, |content|));
  }

  /** The walk-through's first step: a leaf stored into empty tiers is
      complete, of depth 0 and of its own length. */
  lemma StoreLeaf(ids: ChunkIdentity, db: Database, m: ChunkManager)
    requires Valid(db, m) && m.complete.storeName == CompleteChunks
    requires db.stores == map[CompleteChunks := map[], IncompleteChunks := map[]]
    requires ids.childrenOf("leaf-A") == []
    ensures var a := StoreChunkContents(db, Env({}), m, ids, "leaf-A");
            && a.result == Ok(Stored(ids.identifierFor("leaf-A"), "leaf-A", true, Some(0), Some(6)))
            && a.manager == m
            && a.db.stores == map[CompleteChunks := map[ids.identifierFor("leaf-A") := ChunkRecord("leaf-A", 0, 6)],
                                  IncompleteChunks := map[]]
  {
    var a := StoreChunkContents(db, Env({}), m, ids, "leaf-A");
    assert a.result.Ok?;
    LeafChunkIsComplete(db, Env({}), m, ids, "leaf-A");
  }

  /** The second step: a parent whose only child is that leaf is complete,
      one deeper than the leaf and of both lengths together. */
  lemma StoreParent(ids: ChunkIdentity, db: Database, m: ChunkManager)
    requires Valid(db, m) && m.complete.storeName == CompleteChunks
    requires db.stores == map[CompleteChunks := map[ids.identifierFor("leaf-A") := ChunkRecord("leaf-A", 0, 6)],
                              IncompleteChunks := map[]]
    requires ids.childrenOf("parent-B") == [ids.identifierFor("leaf-A")]
    requires ids.identifierFor("parent-B") != ids.identifierFor("leaf-A")
    ensures var b := StoreChunkContents(db, Env({}), m, ids, "parent-B");
            && b.result == Ok(Stored(ids.identifierFor("parent-B"), "parent-B", true, Some(1), Some(14)))
            && b.manager == m
            && b.db.stores[CompleteChunks] ==
               map[ids.identifierFor("leaf-A") := ChunkRecord("leaf-A", 0, 6),
                   ids.identifierFor("parent-B") := ChunkRecord("parent-B", 1, 14)]
            && b.db.stores[IncompleteChunks] == map[]
            && b.db.stores.Keys == {CompleteChunks, IncompleteChunks}
  {
    var idA := ids.identifierFor("leaf-A");
    var b := StoreChunkContents(db, Env({}), m, ids, "parent-B");
    assert Resolvable(db, Env({}), m, idA);
    assert b.result.Ok? && b.result.value.complete;
    CompleteChunkMeasures(db, Env({}), m, ids, "parent-B");
    assert SizeSum(db, m, [idA]) == 6 by {
      assert [idA][..0] == [];
    }
  }

  /** The third step: a chunk whose only child is unknown is stored
      incomplete, and reads back incomplete. */
  lemma StoreOrphan(ids: ChunkIdentity, db: Database, m: ChunkManager, x: Key)
    requires Valid(db, m) && m.complete.storeName == CompleteChunks && m.incomplete.storeName == IncompleteChunks
    requires db.stores.Keys == {CompleteChunks, IncompleteChunks}
    requires db.stores[IncompleteChunks] == map[]
    requires x !in db.stores[CompleteChunks] && ids.identifierFor("orphan-C") !in db.stores[CompleteChunks]
    requires ids.childrenOf("orphan-C") == [x]
    ensures var c := StoreChunkContents(db, Env({}), m, ids, "orphan-C");
            && c.result == Ok(Stored(ids.identifierFor("orphan-C"), "orphan-C", false, None, None))
            && GetChunkContents(c.db, Env({}), c.manager, ids.identifierFor("orphan-C")).result ==
               Ok(Fetched("orphan-C", false, None, None))
  {
    var c := StoreChunkContents(db, Env({}), m, ids, "orphan-C");
    assert !Resolvable(db, Env({}), m, x);
    StoreUsesScan(db, Env({}), m, ids, "orphan-C");
    assert c.result.Ok?;
    StoreThenGetIncomplete(db, Env({}), m, ids, "orphan-C");
  }

  /** The walk-through: a leaf, a parent of that leaf, and a chunk whose only
      child is unknown, stored in that order into empty tiers. */
  lemma LeafParentOrphan(ids: ChunkIdentity, x: Key)
    requires ids.childrenOf("leaf-A") == []
    requires ids.childrenOf("parent-B") == [ids.identifierFor("leaf-A")]
    requires ids.childrenOf("orphan-C") == [x]
    requires x != ids.identifierFor("leaf-A") && x != ids.identifierFor("parent-B")
    requires ids.identifierFor("orphan-C") != ids.identifierFor("leaf-A")
    requires ids.identifierFor("orphan-C") != ids.identifierFor("parent-B")
    requires ids.identifierFor("parent-B") != ids.identifierFor("leaf-A")
    ensures var env := Env({});
            var a := StoreChunkContents(Database(map[CompleteChunks := map[], IncompleteChunks := map[]]),
                                        env, NewChunkManager(), ids, "leaf-A");
            var b := StoreChunkContents(a.db, env, a.manager, ids, "parent-B");
            var c := StoreChunkContents(b.db, env, b.manager, ids, "orphan-C");
            && a.result == Ok(Stored(ids.identifierFor("leaf-A"), "leaf-A", true, Some(0), Some(6)))
            && b.result == Ok(Stored(ids.identifierFor("parent-B"), "parent-B", true, Some(1), Some(14)))
            && c.result == Ok(Stored(ids.identifierFor("orphan-C"), "orphan-C", false, None, None))
            && GetChunkContents(c.db, env, c.manager, ids.identifierFor("orphan-C")).result ==
               Ok(Fetched("orphan-C", false, None, None))
  {
    var env := Env({});
    var db0 := Database(map[CompleteChunks := map[], IncompleteChunks := map[]]);
    var m := NewChunkManager();
    assert Valid(db0, m);
    StoreLeaf(ids, db0, m);
    var a := StoreChunkContents(db0, env, m, ids, "leaf-A");
    StoreParent(ids, a.db, a.manager);
    var b := StoreChunkContents(a.db, env, a.manager, ids, "parent-B");
    StoreOrphan(ids, b.db, b.manager, x);
  }

  /** The registrations the manager's constructor adds, for the given
      instances. */
  function ManagerRegistrations(m: ChunkManager): seq<Registration> {
    [Registration(CompleteChunks, None, m.complete), Registration(IncompleteChunks, Some(LegacyChunks), m.incomplete)]
  }

  /** The upgrade over two registrations: the first entry handled against
      the database, the second against what the first left. */
  lemma UpgradeTwo(db: Database, regs: seq<Registration>)
    requires |regs| == 2
    ensures var once := UpgradeEntry(db, regs[0]);
            var twice := UpgradeEntry(once.db, regs[1]);
            Upgrade(db, regs) == Upgraded(twice.db, once.registry + twice.registry)
  {
    assert regs[..1] == [regs[0]] && [regs[0]][..0] == [];
    assert Upgrade(db, [regs[0]]) == UpgradeEntry(db, regs[0]);
  }

  /** Upgrading an empty database creates both tiers under their own names. */
  lemma UpgradeFreshDatabase()
    ensures var u := Upgrade(Database(map[]), ManagerRegistrations(NewChunkManager()));
            && u.db.stores == map[CompleteChunks := map[], IncompleteChunks := map[]]
            && u.registry == ManagerRegistrations(NewChunkManager())
            && Valid(u.db, NewChunkManager())
  {
    var regs := ManagerRegistrations(NewChunkManager());
    var once := UpgradeEntry(Database(map[]), regs[0]);
    assert once == Upgraded(Database(map[CompleteChunks := map[]]), [regs[0]]);
    var twice := UpgradeEntry(once.db, regs[1]);
    assert twice == Upgraded(Database(map[CompleteChunks := map[], IncompleteChunks := map[]]), [regs[1]]);
    UpgradeTwo(Database(map[]), regs);
  }

  /** Upgrading a database from before the rename keeps the legacy "chunk"
      store as the incomplete tier and creates only the complete tier. */
  lemma UpgradeLegacyDatabase(legacy: ObjectStore)
    requires StringsOnly(legacy)
    ensures var u := Upgrade(Database(map[LegacyChunks := legacy]), ManagerRegistrations(NewChunkManager()));
            && u.db.stores == map[LegacyChunks := legacy, CompleteChunks := map[]]
            && u.registry[1].instance == Handle(LegacyChunks, Some(LegacyChunks))
            && Valid(u.db, ChunkManager(u.registry[0].instance, u.registry[1].instance))
  {
    var regs := ManagerRegistrations(NewChunkManager());
    var once := Upgraded(Database(map[LegacyChunks := legacy, CompleteChunks := map[]]), [regs[0]]);
    assert Upgrade(Database(map[LegacyChunks := legacy]), [regs[0]]) == once by {
      assert UpgradeEntry(Database(map[LegacyChunks := legacy]), regs[0]) == once;
    }
    assert UpgradeEntry(once.db, regs[1]) == Upgraded(once.db, [regs[1].(instance := Rebound(regs[1]))]);
    assert regs[..1] == [regs[0]] && [regs[0]][..0] == [];
  }

  /** Any upgrade keeping the handler's promise over a database holding the
      legacy "chunk" store rebinds the incomplete instance to it and never
      creates "incomplete-chunks" beside it. */
  lemma LegacyStoreIsNeverDuplicated(legacy: ObjectStore, u: Upgraded)
    requires UpgradeFits(Database(map[LegacyChunks := legacy]), ManagerRegistrations(NewChunkManager()), u)
    ensures IncompleteChunks !in u.db.stores
    ensures u.registry[1].instance == Handle(LegacyChunks, Some(LegacyChunks))
  {
    var db := Database(map[LegacyChunks := legacy]);
    var regs := ManagerRegistrations(NewChunkManager());
    assert StoresGrow(db, regs, u) && InstancesBound(db, regs, u);
    assert regs[0].storeName != IncompleteChunks && IncompleteChunks !in db.stores;
    assert DomName(regs[1].compatibleName) in db.stores;
    assert Rebound(regs[1]) == Handle(LegacyChunks, Some(LegacyChunks));
  }
}

=== FILE: engine.dfy ===
/**
  The IndexedDB engine as the chunk store sees it: a database of named object
  stores, the requests that may fail with an I/O error, the errors the code
  raises, and a log of what each operation did (connections opened and
  closed, requests issued, helper functions consulted).
 */
module Engine {
  import opened JsValues

  type StoreName = string
  type Key = string
  type ObjectStore = map<Key, Value>

  /** A database: its object-store names (the keys of `stores`) and the
      contents of each object store. */
  datatype Database = Database(stores: map<StoreName, ObjectStore>)

  /** A place where the engine may reject a request with its own error. */
  datatype Site =
    | OpenSite                              // window.indexedDB.open
    | ReadSite(store: StoreName, key: Key)  // store.get(key)
    | WriteSite(store: StoreName, key: Key) // store.put(entry, key)

  /** The surroundings of one call: the requests the engine rejects. */
  datatype Env = Env(failing: set<Site>)

  datatype Error =
      /** Raised by `get` for an absent or falsy entry; it carries `notFound = true`. */
    | NotFound(key: Key)
      /** The DOM exception `db.transaction` raises for a missing object store. */
    | NotFoundError(store: StoreName)
      /** The engine's own error for a rejected request. */
    | TransportError(site: Site)
      /** 'Chunk size limit exceeded'. */
    | SizeLimitExceeded(size: nat)
      /** 'Chunk not found', named NOT_FOUND_ERROR. */
    | ChunkNotFound
  {
    /** The `error.notFound` flag that callers branch on. */
    predicate HasNotFoundFlag() {
      NotFound?
    }
  }

  datatype Result<+T> = Ok(value: T) | Err(error: Error)

  /** A call into the key-value layer. */
  datatype Op = GetOp(key: Key) | PutOp(key: Key)

  datatype Event =
    | Began(op: Op)
    | Opened
    | Closed
    | Requested(site: Site)
    | ChildrenExtracted    // ChunkingUtils.getChildrenIdentifiers consulted
    | IdentifierGenerated  // ChunkingUtils.generateIdentifierForData consulted

  /** The connection state after one event, or None when the event is not
      allowed in that state (opening twice, closing a closed connection,
      issuing a request with no connection). */
  function Step(e: Event, open: bool): Option<bool> {
    match e
    case Opened => if open then None else Some(true)
    case Closed => if open then Some(false) else None
    case Requested(_) => if open then Some(true) else None
    case _ => Some(open)
  }

  /** The connection state at the end of `log`, starting in state `open`,
      or None when the log misuses the connection. */
  function Connection(log: seq<Event>, open: bool): Option<bool>
    decreases |log|
  {
    if log == [] then Some(open)
    else
      match Step(log[0], open)
      case None => None
      case Some(next) => Connection(log[1..], next)
  }

  /** Connection tracking composes over concatenated logs. */
  lemma {:induction false} ConnectionAppend(a: seq<Event>, b: seq<Event>, open: bool)
    ensures Connection(a + b, open) ==
            (match Connection(a, open)
             case None => None
             case Some(mid) => Connection(b, mid))
    decreases |a|
  {
    if a == [] {
      assert a + b == b;
    } else {
      assert (a + b)[0] == a[0];
      assert (a + b)[1..] == a[1..] + b;
      match Step(a[0], open)
      case None =>
      case Some(next) => ConnectionAppend(a[1..], b, next);
    }
  }

  /** The keys read through the key-value layer, in the order of the calls. */
  function Lookups(log: seq<Event>): seq<Key>
    decreases |log|
  {
    if log == [] then []
    else if log[0].Began? && log[0].op.GetOp? then [log[0].op.key] + Lookups(log[1..])
    else Lookups(log[1..])
  }

  lemma {:induction false} LookupsAppend(a: seq<Event>, b: seq<Event>)
    ensures Lookups(a + b) == Lookups(a) + Lookups(b)
    decreases |a|
  {
    if a == [] {
      assert a + b == b;
    } else {
      assert (a + b)[0] == a[0];
      assert (a + b)[1..] == a[1..] + b;
      LookupsAppend(a[1..], b);
    }
  }
}

=== FILE: indexed_db_base.dfy ===
/**
  The generic key-value layer: one logical store per instance, bound to an
  IndexedDB object store by name, with the schema-upgrade rule that reuses a
  legacy "compatible" object store, the single retry under the compatible
  name when the active object store is missing, and `get`/`put` with one
  short-lived connection per call.
 */
module IndexedDBBase {
  import opened JsValues
  import opened Engine

  /** One instance: the object-store name it currently uses and the legacy
      name it may fall back to (`undefined` when None). */
  datatype Handle = Handle(storeName: StoreName, compatibleName: Option<StoreName>)

  /** The entry an instance adds to the shared registry when constructed:
      the names given to the constructor and the instance itself. */
  datatype Registration = Registration(storeName: StoreName, compatibleName: Option<StoreName>, instance: Handle)

  /** `objectStoreNames.contains(x)` converts its argument to a string, so an
      absent compatible name is looked up as "undefined". */
  function DomName(name: Option<StoreName>): StoreName {
    match name
    case Some(n) => n
    case None => "undefined"
  }

  /** The guard of the compatible-name retry in `getStore`. */
  predicate CanRetry(h: Handle) {
    IsSet(h.compatibleName) && h.compatibleName.value != h.storeName
  }

  /** The handle after `this.storeName = this.compatibleName`. */
  function Switched(h: Handle): Handle
    requires h.compatibleName.Some?
  {
    h.(storeName := h.compatibleName.value)
  }

  /** The instance after the upgrade rebinds it to its compatible name. */
  function Rebound(r: Registration): Handle {
    r.instance.(storeName := DomName(r.compatibleName))
  }

  // ---------------------------------------------------------------------
  // Schema upgrade
  // ---------------------------------------------------------------------

  datatype Upgraded = Upgraded(db: Database, registry: seq<Registration>)

  /** One turn of the upgrade loop: keep an existing store, rebind the
      instance to an existing compatible store, or create the store. */
  function UpgradeEntry(db: Database, r: Registration): (u: Upgraded)
    ensures |u.registry| == 1
    ensures u.registry[0].storeName == r.storeName && u.registry[0].compatibleName == r.compatibleName
    // keep: nothing changes
    ensures r.storeName in db.stores ==> u == Upgraded(db, [r])
    // rebind: no store is created
    ensures r.storeName !in db.stores && DomName(r.compatibleName) in db.stores ==>
              u.db == db && u.registry[0].instance == Rebound(r)
    // create: exactly the primary name is added, empty
    ensures r.storeName !in db.stores && DomName(r.compatibleName) !in db.stores ==>
              u.db.stores.Keys == db.stores.Keys + {r.storeName} &&
              u.db.stores[r.storeName] == map[] &&
              u.registry[0].instance == r.instance
    // every existing store survives with its contents
    ensures forall n :: n in db.stores ==> n in u.db.stores && u.db.stores[n] == db.stores[n]
  {
    if r.storeName in db.stores then Upgraded(db, [r])
    else if DomName(r.compatibleName) in db.stores then
      Upgraded(db, [r.(instance := Rebound(r))])
    else
      Upgraded(Database(db.stores[r.storeName := map[]]), [r])
  }

  /** The registry keeps its entries' names. */
  predicate NamesKept(regs: seq<Registration>, u: Upgraded) {
    && |u.registry| == |regs|
    && forall i :: 0 <= i < |regs| ==>
         u.registry[i].storeName == regs[i].storeName &&
         u.registry[i].compatibleName == regs[i].compatibleName
  }

  /** Object stores are only added, never removed or touched, and a new
      store is empty and is the primary name of some entry whose
      compatible store did not exist (else that entry is rebound to it). */
  predicate StoresGrow(db: Database, regs: seq<Registration>, u: Upgraded) {
    && (forall n :: n in db.stores ==> n in u.db.stores && u.db.stores[n] == db.stores[n])
    && (forall n :: n in u.db.stores && n !in db.stores ==>
          u.db.stores[n] == map[] &&
          exists i :: 0 <= i < |regs| && regs[i].storeName == n && DomName(regs[i].compatibleName) !in db.stores)
  }

  /** Each instance keeps its name, its primary store then existing, or is
      rebound to an existing compatible store its primary name was missing
      for; so freshly constructed instances all end up naming an existing
      store. */
  predicate InstancesBound(db: Database, regs: seq<Registration>, u: Upgraded)
    requires |u.registry| == |regs|
  {
    && (forall i :: 0 <= i < |regs| ==>
          (u.registry[i].instance == regs[i].instance && regs[i].storeName in u.db.stores) ||
          (u.registry[i].instance == Rebound(regs[i]) && regs[i].storeName !in db.stores &&
           DomName(regs[i].compatibleName) in u.db.stores))
    && ((forall i :: 0 <= i < |regs| ==> regs[i].instance.storeName == regs[i].storeName) ==>
          forall i :: 0 <= i < |regs| ==> u.registry[i].instance.storeName in u.db.stores)
  }

  /** What an upgrade over `regs` promises. */
  predicate UpgradeFits(db: Database, regs: seq<Registration>, u: Upgraded) {
    NamesKept(regs, u) && StoresGrow(db, regs, u) && InstancesBound(db, regs, u)
  }

  lemma NamesKeptStep(regs: seq<Registration>, before: Upgraded, last: Upgraded)
    requires regs != []
    requires NamesKept(regs[..|regs| - 1], before)
    requires |last.registry| == 1
    requires last.registry[0].storeName == regs[|regs| - 1].storeName
    requires last.registry[0].compatibleName == regs[|regs| - 1].compatibleName
    ensures NamesKept(regs, Upgraded(last.db, before.registry + last.registry))
  {
    var k := |regs| - 1;
    assert forall i :: 0 <= i < k ==> (before.registry + last.registry)[i] == before.registry[i] && regs[..k][i] == regs[i];
  }

  lemma {:induction false} StoresGrowStep(db: Database, regs: seq<Registration>, before: Upgraded, last: Upgraded)
    requires regs != []
    requires StoresGrow(db, regs[..|regs| - 1], before)
    requires last == UpgradeEntry(before.db, regs[|regs| - 1])
    ensures StoresGrow(db, regs, Upgraded(last.db, before.registry + last.registry))
  {
    var k := |regs| - 1;
    forall n | n in last.db.stores && n !in db.stores
      ensures last.db.stores[n] == map[] &&
              exists i :: 0 <= i < |regs| && regs[i].storeName == n && DomName(regs[i].compatibleName) !in db.stores
    {
      if n in before.db.stores {
        var j :| 0 <= j < k && regs[..k][j].storeName == n && DomName(regs[..k][j].compatibleName) !in db.stores;
        assert regs[j].storeName == n && regs[j] == regs[..k][j];
      } else {
        assert regs[k].storeName == n;
      }
    }
  }

  lemma {:induction false} InstancesBoundStep(db: Database, regs: seq<Registration>, before: Upgraded, last: Upgraded)
    requires regs != []
    requires NamesKept(regs[..|regs| - 1], before)
    requires forall n :: n in db.stores ==> n in before.db.stores
    requires InstancesBound(db, regs[..|regs| - 1], before)
    requires last == UpgradeEntry(before.db, regs[|regs| - 1])
    ensures InstancesBound(db, regs, Upgraded(last.db, before.registry + last.registry))
  {
    var k := |regs| - 1;
    var u := Upgraded(last.db, before.registry + last.registry);
    forall i | 0 <= i < |regs|
      ensures (u.registry[i].instance == regs[i].instance && regs[i].storeName in u.db.stores) ||
              (u.registry[i].instance == Rebound(regs[i]) && regs[i].storeName !in db.stores &&
               DomName(regs[i].compatibleName) in u.db.stores)
      ensures regs[i].instance.storeName == regs[i].storeName ==> u.registry[i].instance.storeName in u.db.stores
    {
      if i < k {
        assert u.registry[i] == before.registry[i] && regs[..k][i] == regs[i];
      } else {
        assert u.registry[i] == last.registry[0];
      }
    }
  }

  /** The entries before the last upgraded, then the last handled against
      the database they left, fits the whole registry. */
  lemma UpgradeStep(db: Database, regs: seq<Registration>, before: Upgraded, last: Upgraded)
    requires regs != []
    requires UpgradeFits(db, regs[..|regs| - 1], before)
    requires last == UpgradeEntry(before.db, regs[|regs| - 1])
    ensures UpgradeFits(db, regs, Upgraded(last.db, before.registry + last.registry))
  {
    NamesKeptStep(regs, before, last);
    StoresGrowStep(db, regs, before, last);
    InstancesBoundStep(db, regs, before, last);
  }

  /** The upgrade handler: the loop over the registry, each entry seeing
      the stores created by the entries before it. */
  function Upgrade(db: Database, regs: seq<Registration>): (u: Upgraded)
    ensures UpgradeFits(db, regs, u)
    decreases |regs|
  {
    if regs == [] then Upgraded(db, [])
    else
      var before := Upgrade(db, regs[..|regs| - 1]);
      var last := UpgradeEntry(before.db, regs[|regs| - 1]);
      UpgradeStep(db, regs, before, last);
      Upgraded(last.db, before.registry + last.registry)
  }

  /** A registry every entry of which already has its primary store, or a
      compatible store it is bound to. */
  ghost predicate Settled(db: Database, regs: seq<Registration>) {
    forall i :: 0 <= i < |regs| ==>
      regs[i].storeName in db.stores ||
      (DomName(regs[i].compatibleName) in db.stores && regs[i].instance == Rebound(regs[i]))
  }

  lemma {:induction false} UpgradeSettled(db: Database, regs: seq<Registration>)
    requires Settled(db, regs)
    ensures Upgrade(db, regs) == Upgraded(db, regs)
    decreases |regs|
  {
    if regs != [] {
      var k := |regs| - 1;
      assert Settled(db, regs[..k]) by {
        forall i | 0 <= i < k
          ensures regs[..k][i].storeName in db.stores ||
                  (DomName(regs[..k][i].compatibleName) in db.stores && regs[..k][i].instance == Rebound(regs[..k][i]))
        {
          assert regs[..k][i] == regs[i];
        }
      }
      UpgradeSettled(db, regs[..k]);
      assert UpgradeEntry(db, regs[k]) == Upgraded(db, [regs[k]]);
      assert regs[..k] + [regs[k]] == regs;
    }
  }

  /** Running the upgrade a second time over the same registry creates no
      store and rebinds no instance. */
  lemma UpgradeIdempotent(db: Database, regs: seq<Registration>)
    ensures var u := Upgrade(db, regs); Upgrade(u.db, u.registry) == u
  {
    var u := Upgrade(db, regs);
    forall i | 0 <= i < |u.registry|
      ensures u.registry[i].storeName in u.db.stores ||
              (DomName(u.registry[i].compatibleName) in u.db.stores && u.registry[i].instance == Rebound(u.registry[i]))
    {
      assert Rebound(u.registry[i]) == Rebound(regs[i]);
    }
    UpgradeSettled(u.db, u.registry);
  }

  // ---------------------------------------------------------------------
  // Connections and the compatible-name retry
  // ---------------------------------------------------------------------

  /** What `getStore` leaves behind: the instance (its store name possibly
      switched), the connection events, and the object store handed out. */
  datatype Session = Session(handle: Handle, log: seq<Event>, result: Result<StoreName>)

  function GetStore(db: Database, env: Env, h: Handle): (s: Session)
    // success exactly when the database opens and the active store, or
    // (when a distinct compatible name is set) the compatible store, exists
    ensures s.result.Ok? <==>
              OpenSite !in env.failing &&
              (h.storeName in db.stores || (CanRetry(h) && h.compatibleName.value in db.stores))
    ensures s.result.Ok? ==> s.result.value == s.handle.storeName && s.result.value in db.stores
    // a failure is the open error, or NotFoundError for the name last tried
    ensures s.result.Err? ==>
              s.result.error == (if OpenSite in env.failing then TransportError(OpenSite)
                                 else NotFoundError(s.handle.storeName))
    // the store name is switched, permanently, only when the active store is
    // missing and a distinct compatible name is set; after that no retry is possible
    ensures s.handle == h || (h.compatibleName.Some? && s.handle == Switched(h))
    ensures s.handle != h <==> OpenSite !in env.failing && h.storeName !in db.stores && CanRetry(h)
    ensures s.handle != h ==> !CanRetry(s.handle)
    // at most two connections; on failure every connection is closed, on
    // success exactly the one handed to the caller is still open
    ensures multiset(s.log)[Opened] <= 2
    ensures Connection(s.log, false) == Some(s.result.Ok?)
    ensures Lookups(s.log) == []
    decreases if CanRetry(h) then 1 else 0
  {
    if OpenSite in env.failing then
      Session(h, [], Err(TransportError(OpenSite)))
    else if h.storeName in db.stores then
      Session(h, [Opened], Ok(h.storeName))
    else if CanRetry(h) then
      var retry := GetStore(db, env, Switched(h));
      assert Connection([Opened, Closed] + retry.log, false) == Connection(retry.log, false) by {
        ConnectionAppend([Opened, Closed], retry.log, false);
      }
      assert Lookups([Opened, Closed] + retry.log) == Lookups(retry.log) by {
        LookupsAppend([Opened, Closed], retry.log);
      }
      retry.(log := [Opened, Closed] + retry.log)
    else
      Session(h, [Opened, Closed], Err(NotFoundError(h.storeName)))
  }

  /** Once switched, an instance never switches again, whatever the state
      of the database at later calls. */
  lemma SwitchIsPermanent(db: Database, env: Env, h: Handle, db': Database, env': Env)
    requires GetStore(db, env, h).handle != h
    ensures var h' := GetStore(db, env, h).handle;
            GetStore(db', env', h').handle == h' && h'.storeName == h.compatibleName.value
  {
  }

  // ---------------------------------------------------------------------
  // put and get
  // ---------------------------------------------------------------------

  /** The site of the request a call issues once its store is resolved. */
  function SiteOf(op: Op, name: StoreName): Site {
    match op
    case GetOp(key) => ReadSite(name, key)
    case PutOp(key) => WriteSite(name, key)
  }

  /** The events of one `get` or `put` call: the call, the `getStore`
      connections, and, once a store is handed out, the request and the
      close in its success or error callback. */
  function CallLog(op: Op, s: Session): (log: seq<Event>)
    requires Connection(s.log, false) == Some(s.result.Ok?)
    requires Lookups(s.log) == []
    ensures Connection(log, false) == Some(false)
    ensures Lookups(log) == (if op.GetOp? then [op.key] else [])
  {
    var head := [Began(op)] + s.log;
    ConnectionAppend([Began(op)], s.log, false);
    LookupsAppend([Began(op)], s.log);
    if s.result.Err? then head
    else
      var tail := [Requested(SiteOf(op, s.result.value)), Closed];
      assert tail[1..] == [Closed] && tail[1..][1..] == [];
      assert Connection(tail[1..], true) == Some(false) && Lookups(tail[1..]) == [];
      ConnectionAppend(head, tail, false);
      LookupsAppend(head, tail);
      head + tail
  }

  datatype PutOutcome = PutOutcome(db: Database, handle: Handle, log: seq<Event>, result: Result<()>)

  function Put(db: Database, env: Env, h: Handle, key: Key, entry: Value): (o: PutOutcome)
    ensures o.handle == GetStore(db, env, h).handle
    // an upsert at `key` in the resolved store; every other key and store unchanged
    ensures o.result.Ok? ==>
              o.handle.storeName in db.stores &&
              o.db.stores == db.stores[o.handle.storeName := db.stores[o.handle.storeName][key := entry]]
    ensures o.result.Err? ==> o.db == db
    ensures o.result.Ok? <==>
              GetStore(db, env, h).result.Ok? && WriteSite(o.handle.storeName, key) !in env.failing
    ensures o.result.Err? ==> !o.result.error.HasNotFoundFlag()
    // a failure is the error of getStore, or else the write request's error
    ensures o.result.Err? ==>
              o.result.error == (var s := GetStore(db, env, h);
                                 if s.result.Err? then s.result.error
                                 else TransportError(WriteSite(o.handle.storeName, key)))
    // the connection is closed on every exit path
    ensures Connection(o.log, false) == Some(false)
    ensures Lookups(o.log) == []
  {
    var s := GetStore(db, env, h);
    var log := CallLog(PutOp(key), s);
    match s.result
    case Err(e) => PutOutcome(db, s.handle, log, Err(e))
    case Ok(name) =>
      if WriteSite(name, key) in env.failing then
        PutOutcome(db, s.handle, log, Err(TransportError(WriteSite(name, key))))
      else
        PutOutcome(Database(db.stores[name := db.stores[name][key := entry]]), s.handle, log, Ok(()))
  }

  datatype GetOutcome = GetOutcome(handle: Handle, log: seq<Event>, result: Result<Value>)

  /** The entry `get` finds present: stored under the key and truthy. */
  predicate Present(db: Database, name: StoreName, key: Key) {
    name in db.stores && key in db.stores[name] && Truthy(db.stores[name][key])
  }

  function Get(db: Database, env: Env, h: Handle, key: Key): (o: GetOutcome)
    ensures o.handle == GetStore(db, env, h).handle
    // a value is returned only when it is stored and truthy
    ensures o.result.Ok? ==>
              Present(db, o.handle.storeName, key) && o.result.value == db.stores[o.handle.storeName][key]
    ensures o.result.Ok? <==>
              GetStore(db, env, h).result.Ok? && ReadSite(o.handle.storeName, key) !in env.failing &&
              Present(db, o.handle.storeName, key)
    // an absent or falsy entry in a reachable store is the notFound error
    ensures o.result.Err? && o.result.error.HasNotFoundFlag() <==>
              GetStore(db, env, h).result.Ok? && ReadSite(o.handle.storeName, key) !in env.failing &&
              !Present(db, o.handle.storeName, key)
    ensures o.result.Err? && o.result.error.HasNotFoundFlag() ==> o.result.error == NotFound(key)
    // any other failure is the error of getStore, or else the read request's error
    ensures o.result.Err? && !o.result.error.HasNotFoundFlag() ==>
              o.result.error == (var s := GetStore(db, env, h);
                                 if s.result.Err? then s.result.error
                                 else TransportError(ReadSite(o.handle.storeName, key)))
    // the connection is closed on every exit path
    ensures Connection(o.log, false) == Some(false)
    ensures Lookups(o.log) == [key]
  {
    var s := GetStore(db, env, h);
    var log := CallLog(GetOp(key), s);
    match s.result
    case Err(e) => GetOutcome(s.handle, log, Err(e))
    case Ok(name) =>
      if ReadSite(name, key) in env.failing then
        GetOutcome(s.handle, log, Err(TransportError(ReadSite(name, key))))
      else if Present(db, name, key) then
        GetOutcome(s.handle, log, Ok(db.stores[name][key]))
      else
        GetOutcome(s.handle, log, Err(NotFound(key)))
  }

  /** Round trip: a truthy value put under a key is what a later get of that
      key returns, through the same instance. */
  lemma PutThenGet(db: Database, env: Env, h: Handle, key: Key, v: Value)
    requires Truthy(v)
    requires Put(db, env, h, key, v).result.Ok?
    requires ReadSite(Put(db, env, h, key, v).handle.storeName, key) !in env.failing
    ensures var p := Put(db, env, h, key, v);
            Get(p.db, env, p.handle, key).result == Ok(v)
  {
  }

  /** A falsy value put under a key reads back as not found. */
  lemma PutFalsyReadsNotFound(db: Database, env: Env, h: Handle, key: Key, v: Value)
    requires !Truthy(v)
    requires Put(db, env, h, key, v).result.Ok?
    requires ReadSite(Put(db, env, h, key, v).handle.storeName, key) !in env.failing
    ensures var p := Put(db, env, h, key, v);
            Get(p.db, env, p.handle, key).result == Err(NotFound(key))
  {
  }

  /** Without a compatible-name retry, `get` depends only on whether the
      instance's store exists and on the entry under the key. */
  lemma GetDependsOnEntry(db: Database, db': Database, env: Env, h: Handle, key: Key)
    requires !CanRetry(h)
    requires h.storeName in db.stores <==> h.storeName in db'.stores
    requires h.storeName in db.stores ==>
               (key in db.stores[h.storeName] <==> key in db'.stores[h.storeName]) &&
               (key in db.stores[h.storeName] ==> db.stores[h.storeName][key] == db'.stores[h.storeName][key])
    ensures Get(db, env, h, key) == Get(db', env, h, key)
  {
    assert GetStore(db, env, h) == GetStore(db', env, h);
  }
}

=== FILE: js_values.dfy ===
/**
  The JavaScript values the browser chunk store keeps in IndexedDB, and the
  language's notion of truthiness, which decides whether a stored entry
  counts as present.
 */
module JsValues {

  datatype Option<+T> = None | Some(value: T)

  /** The values this program writes or may read back. Numbers are kept
      integral: the store never writes a fractional or NaN number. */
  datatype Value =
    | Undefined
    | Null
    | Bool(b: bool)
    | Num(n: int)
    | Str(s: string)
      /** The object `{base64data, depth, size}` kept for a complete chunk. */
    | ChunkRecord(base64data: string, depth: nat, size: nat)

  /** JavaScript truthiness: `undefined`, `null`, `false`, `0` and the empty
      string are falsy; every object is truthy. */
  predicate Truthy(v: Value) {
    match v
    case Undefined => false
    case Null => false
    case Bool(b) => b
    case Num(n) => n != 0
    case Str(s) => s != []
    case ChunkRecord(_, _, _) => true
  }

  /** Truthiness of an optional string, as in `if (this.compatibleName)`. */
  predicate IsSet(o: Option<string>) {
    o.Some? && o.value != []
  }
}
